=== FILE: README.md ===
# Hospital bed allocation server — Dafny model

The server keeps one shared allocation table: 100 patient records indexed by
patient identifier, an identifier counter, 10 regular beds and 3 emergency
beds, where each bed slot holds the occupant's identifier or 0 for free.
Clients send `insert`, `release` or `search` requests; each handler takes the
state mutex for its whole operation, so every operation is one atomic
transition of the table. This project models that transition system:

- `scan.dfy` (`Scan`): the first-fit linear scan every operation uses.
- `ward.dfy` (`Ward`): the patient record, the table, its start-up value,
  and the responses.
- `allocator.dfy` (`Allocator`): admission (`Insert`), release (`Release`)
  and search (`Search`), and the lemmas stating their behaviour.
- `occupancy.dfy` (`Occupancy`): the invariant the table keeps between
  requests, and its consequences (no identifier in two slots, a second
  release fails, a released record stays released, a released bed is
  reused).
- `server.dfy` (`Server`): the command dispatcher and runs of requests
  served one after another in the order they obtained the mutex.
- `hazards.dfy` (`Hazards`): two defects of the server, modelled as the
  code behaves and demonstrated by lemmas.

Responses are a datatype, not formatted text. The release log is modelled as
the list of released records a step appends (`Step.audit`).

## Hazards modelled as written

- **Identifier 0 reads as a free bed.** The counter starts at 0 and 0 is the
  free-slot value, so the first patient's slot still reads as free and the
  second admission gets the same bed (`Hazards.FirstTwoPatientsShareBedOne`).
  Releasing patient 0 then frees the slot of the patient sharing the bed
  (`Hazards.ReleasingPatientZeroEvictsBedmate`). The invariant proved in
  `Occupancy` is therefore one-directional: every slot that reads as
  occupied points back to an active record with that bed number. The
  converse, that each active patient's slot holds their identifier, does
  not hold.
- **Unchecked index.** The admitted record is stored at `patients[id]` with no
  check against the capacity of 100. Refused admissions advance the counter
  too. The model answers `IdOutOfRange(id)` at that point. The table it
  returns holds what the code has written before the store: the counter has
  advanced and the bed slot holds the identifier. A run ends with that
  response, because the C store is undefined behaviour
  (`Hazards.RefusalsLeadToOverrun`).

One might expect every active record to occupy the slot its bed number
names, and a fresh table to hand out distinct beds. Neither holds, because
identifier 0 is also the free-slot value (`Hazards.FirstTwoPatientsShareBedOne`).

The emergency fallback at server.c:94 applies only when the critical flag is
exactly 1, not when it is merely non-zero.

## Model

| member | source | states |
|---|---|---|
| Scan.FirstFrom | server.c:86-92 | the scan stops at the lowest index from the start that passes the test, every earlier index fails it, and it finds nothing exactly when no index passes |
| Ward.Empty | server.c:216-219 | the zero-filled table has the fixed array sizes, counter 0, no active record and every bed slot free |
| Allocator.Choose | server.c:86-102 | a regular placement is the lowest free regular slot; an emergency placement needs critical flag 1, all regular slots occupied, and is the lowest free emergency slot; no bed exactly when regular beds are full and the patient is not critical or emergency beds are full too |
| Allocator.Insert | server.c:76-115 | every admission, refused or not, advances the counter by exactly one; an admitted patient's identifier is the counter's old value; the only responses are admitted, no beds, or the out-of-range store; nothing is logged |
| Allocator.InsertTakesLowestRegularBed | server.c:86-92 | when a regular slot is free the patient gets the lowest one, as bed number slot+1 in 1..10, only that regular slot changes and the record is stored at the identifier's index |
| Allocator.InsertOverflowsToEmergencyBed | server.c:94-102 | with all regular beds taken a patient with critical flag 1 gets the lowest free emergency slot, as bed number slot+11 in 11..13, and only that emergency slot changes |
| Allocator.AdmittedBedIsFirstFit | server.c:86-102 | an admitted bed is in 1..13; a regular one is the lowest free regular slot; an emergency one went to a critical patient while every regular slot was taken and is the lowest free emergency slot |
| Allocator.NonCriticalNeverGetsEmergencyBed | server.c:94 | a patient whose critical flag is not 1 never changes the emergency beds and is never admitted to a bed above 10 |
| Allocator.InsertRejectedExactlyWhenFull | server.c:104-105 | "No beds available" exactly when regular beds are full and the patient is not critical or emergency beds are full; then records and beds are unchanged and only the counter moved |
| Allocator.AdmissionWritesOneSlotAndOneRecord | server.c:81-107 | a successful admission writes exactly one bed slot, which was free, to the new identifier and stores exactly one record, at that identifier's index below 100, holding the request's name, age, CNIC, phone and critical flag, marked active with the identifier and the bed number |
| Allocator.InsertPastCapacityOverruns | server.c:107 | the store overruns the patient table exactly when the counter is outside 0..99 and a bed was found; then no record is stored |
| Allocator.Release | server.c:117-149 | a release never moves the counter, answers released or invalid id, and on success deactivates an active record carrying the identifier, frees the slot its bed number designates, changes no other record and logs exactly that record |
| Allocator.ReleaseFreesFirstMatch | server.c:123-140 | the first active record with the identifier is deactivated and logged once; the slot its bed number designates (regular for 1..10, emergency for 11..13, none otherwise) is freed and nothing else changes |
| Allocator.ReleaseFailsExactlyWithoutActiveRecord | server.c:143-145 | "Invalid patient ID" exactly when no active record carries the identifier, and then the table is unchanged and nothing is logged |
| Allocator.Search | server.c:151-176 | a search answers found or not found, and a found summary is that of an active record with the CNIC |
| Allocator.SearchReportsFirstMatch | server.c:157-167 | the summary reported is that of the lowest-index active record with the CNIC |
| Allocator.SearchMissesExactlyWithoutActiveRecord | server.c:171-172 | "Patient not found" exactly when no active record has the CNIC |
| Occupancy.EmptyIsConsistent | server.c:219 | the zero-filled table satisfies the occupancy invariant |
| Occupancy.InsertPreservesInv | server.c:82-107 | an admission that stays inside the patient table keeps every active record at its own index below the counter and every occupied slot pointing back to its occupant |
| Occupancy.ActiveMatchIsAtOwnIndex | server.c:107 | under the invariant an active record carrying an identifier is the one stored at that index, so it is the first match of a release |
| Occupancy.ReleasePreservesInv | server.c:127-134 | a release keeps the invariant: the only slot pointing to the released record is the one freed |
| Occupancy.OccupiedSlotsHoldDistinctIds | server.c:86-102 | no identifier occupies two slots, within or across the two bed arrays |
| Occupancy.SecondReleaseFails | server.c:123-145 | releasing the same identifier twice answers "Invalid patient ID" the second time |
| Occupancy.ReleasedStaysReleased | server.c:82-107 | a released record below the counter is never reactivated by an admission or a release |
| Occupancy.ReleasedBedIsReused | server.c:127-129 | when the patient in a regular bed is released and every other regular bed is taken, the next admission gets that bed |
| Server.Process | server.c:197-205 | "insert" admits the request's patient: it is refused exactly when no bed is left for its critical flag, overruns only when the counter is outside 0..99, and is otherwise admitted to the first free slot of the array the code scanned (emergency only for critical flag 1 with every regular bed taken), writing the identifier into that slot and storing the request's name, age, CNIC, phone and critical flag with the bed number, and changing no other record or slot; it is the only command that moves the counter, by one; "release" succeeds exactly when an active record carries the request's identifier, then deactivates that record, frees the slot its bed number designates and logs exactly that released record; "search" looks up the request's CNIC, misses exactly when no active record has it, and changes nothing |
| Server.Run | server.c:226-235 | a run serves at most one response per request, ends early only on an out-of-range store, and logs exactly one record per successful release |
| Server.UnknownCommandChangesNothing | server.c:203-205 | a command other than insert, release or search answers "Unknown command" and changes nothing |
| Server.SearchIsReadOnly | server.c:201-202 | a search request never changes the table and logs nothing |
| Server.ProcessPreservesInv | server.c:197-205 | every request that does not overrun the patient table keeps the invariant |
| Server.RunPreservesInv | server.c:226-235 | a run from a consistent table that does not end in an overrun ends in a consistent table |
| Server.RunAdmittedIdsInRange | server.c:82 | identifiers admitted in a run lie between the counter's values before and after the run |
| Server.RunAdmittedIdsIncrease | server.c:82 | identifiers admitted along a run strictly increase |
| Hazards.FirstTwoPatientsShareBedOne | server.c:82-89 | from the start-up table the first two admissions both get bed 1; the invariant holds but patient 0 no longer occupies its bed |
| Hazards.ReleasingPatientZeroEvictsBedmate | server.c:127-129 | releasing patient 0 then frees bed 1 while patient 1 is still active in it, and the next admission gets bed 1 again |
| Hazards.FullWardOnlyAdvancesCounter | server.c:82 | with every bed taken, a run of insert requests answers "No beds available" to each and changes nothing but the counter, which advances once per request |
| Hazards.RefusalsLeadToOverrun | server.c:107 | a full ward whose run of refused insert requests brings the counter to 100 stores past the end of the patient table once a bed is released and someone is admitted |

## Left out

- client.c is not part of this model: its interactive prompts, request framing and printing carry no allocation logic.
- Named semaphores, FIFOs, shared-memory mapping and thread creation (server.c:178-195, 207-215, 220-224, 227-234, 237-243) are left out. The zero-filled start-up table (server.c:216-219) is `Ward.Empty`. The accept loop (server.c:226-235) is modelled as `Server.Run`: the state mutex makes each operation atomic, so the requests are served in one serialization order. Which order the threads take is not modelled; every order is some run.
- Mutex logging (`log_with_timestamp`, server.c:50-57) is left out because it writes only to the console. The release log file (`write_log`, server.c:59-74) is reduced to the released record; its timestamp and text format are left out.
- Response text formatting (server.c:105, 109, 137, 144, 163, 172, 204) is left out; responses are a datatype.
- Fixed-width C strings and `strcmp` are left out; names, CNICs, phones and commands are Dafny strings compared by equality, with no truncation to the buffer sizes.
- The request fields `search_id` and `search_name` are left out because the server never reads them.
- The `active` field is a boolean, because the server only ever stores 0 or 1 in it.
- Allocator.Insert: the counter is an unbounded integer; signed overflow of the C `int` at `last_patient_id++` (server.c:82) is not modelled. It needs 2^31 insert requests, every one from the 101st on refused (a refusal stores nothing, server.c:104-105), and what follows it is undefined behaviour in C.
- Allocator.Insert: what happens after the out-of-range store is not modelled, because that store is undefined behaviour in C; `Server.Run` stops there.

=== FILE: allocator.dfy ===
/** The three operations the server performs on the allocation table while
    holding its state mutex: admitting, releasing and searching for a
    patient. Each runs start to finish under the one lock, so each is a
    single atomic transition from a table to a new table and a response.
 */
module Allocator {
  import opened Scan
  import opened Ward

  /** The free-bed test both first-fit scans apply. */
  predicate IsFree(slot: int) {
    slot == Free
  }

  /** `i` is the lowest free slot of `beds`. */
  ghost predicate LowestFree(beds: seq<int>, i: int) {
    0 <= i < |beds| && beds[i] == Free && forall j :: 0 <= j < i ==> beds[j] != Free
  }

  ghost predicate AllOccupied(beds: seq<int>) {
    forall j :: 0 <= j < |beds| ==> beds[j] != Free
  }

  /** Where an admission puts the patient. */
  datatype Placement = Regular(slot: nat) | Emergency(slot: nat) | NoBed

  /** The bed choice of an admission: the lowest free regular slot; failing
      that, and only for a patient whose critical flag is exactly 1, the
      lowest free emergency slot. */
  function Choose(t: Table, critical: int): (pl: Placement)
    ensures pl.Regular? ==> LowestFree(t.regularBeds, pl.slot)
    ensures pl.Emergency? ==>
      critical == 1 && AllOccupied(t.regularBeds) && LowestFree(t.emergencyBeds, pl.slot)
    ensures pl.NoBed? <==>
      AllOccupied(t.regularBeds) && (critical != 1 || AllOccupied(t.emergencyBeds))
  {
    match First(t.regularBeds, IsFree)
    case Some(i) => Regular(i)
    case None =>
      if critical == 1 then
        match First(t.emergencyBeds, IsFree)
        case Some(j) => Emergency(j)
        case None => NoBed
      else NoBed
  }

  /** The bed number reported for a placement: 1..10 for a regular slot,
      11..13 for an emergency slot, 0 for none. */
  function BedNumber(pl: Placement): int {
    match pl
    case Regular(i) => i + 1
    case Emergency(j) => j + RegularBeds + 1
    case NoBed => 0
  }

  /** Writes the patient's identifier into the chosen slot. */
  function Occupy(t: Table, pl: Placement, id: int): (r: Table)
    requires WellFormed(t)
    requires pl.Regular? ==> pl.slot < RegularBeds
    requires pl.Emergency? ==> pl.slot < EmergencyBeds
    ensures WellFormed(r)
  {
    match pl
    case Regular(i) => t.(regularBeds := t.regularBeds[i := id])
    case Emergency(j) => t.(emergencyBeds := t.emergencyBeds[j := id])
    case NoBed => t
  }

  /** The record an admission stores: the request's fields with the
      identifier, bed number and active flag filled in by the server. */
  function AdmittedRecord(p: Patient, id: int, bed: int): Patient {
    p.(patientId := id, bedNumber := bed, active := true)
  }

  /** Admission. The identifier is taken from the counter, which advances
      whether or not a bed is found. When a bed is found its slot is
      written before the record is stored at index `id` of the patient
      table; the C code performs that store without checking the index,
      and the model answers `IdOutOfRange` there instead. */
  function Insert(t: Table, p: Patient): (r: Step)
    requires WellFormed(t)
    ensures WellFormed(r.table)
    ensures r.table.lastPatientId == t.lastPatientId + 1
    ensures r.response.Admitted? ==> r.response.id == t.lastPatientId
    ensures r.audit == []
    ensures r.response.Admitted? || r.response.NoBedsAvailable? || r.response.IdOutOfRange?
  {
    var id := t.lastPatientId;
    var pl := Choose(t, p.critical);
    var counted := t.(lastPatientId := id + 1);
    if pl.NoBed? then
      Step(counted, NoBedsAvailable, [])
    else
      var placed := Occupy(counted, pl, id);
      if 0 <= id < MaxPatients then
        var rec := AdmittedRecord(p, id, BedNumber(pl));
        Step(placed.(patients := placed.patients[id := rec]), Admitted(id, BedNumber(pl)), [])
      else
        Step(placed, IdOutOfRange(id), [])
  }

  /** `u` is `t` with the slot bed number `bed` designates set free:
      regular slot bed - 1 for 1..10, emergency slot bed - 11 for 11..13,
      no slot for any other number. */
  ghost predicate BedFreed(t: Table, u: Table, bed: int)
    requires WellFormed(t)
  {
    && (1 <= bed <= RegularBeds ==>
          u.regularBeds == t.regularBeds[bed - 1 := Free] && u.emergencyBeds == t.emergencyBeds)
    && (RegularBeds < bed <= RegularBeds + EmergencyBeds ==>
          u.emergencyBeds == t.emergencyBeds[bed - RegularBeds - 1 := Free]
          && u.regularBeds == t.regularBeds)
    && (!(1 <= bed <= RegularBeds + EmergencyBeds) ==>
          u.regularBeds == t.regularBeds && u.emergencyBeds == t.emergencyBeds)
  }

  /** Frees the slot a bed number designates; a number outside 1..13
      frees nothing. */
  function Vacate(t: Table, bed: int): (r: Table)
    requires WellFormed(t)
    ensures WellFormed(r)
    ensures BedFreed(t, r, bed)
  {
    if 0 < bed <= RegularBeds then
      t.(regularBeds := t.regularBeds[bed - 1 := Free])
    else if RegularBeds < bed <= RegularBeds + EmergencyBeds then
      t.(emergencyBeds := t.emergencyBeds[bed - RegularBeds - 1 := Free])
    else
      t
  }

  /** The test of the release scan: an active record carrying the id. */
  function ActiveWithId(id: int): Patient -> bool {
    (rec: Patient) => rec.active && rec.patientId == id
  }

  /** The test of the search scan: an active record carrying the CNIC. */
  function ActiveWithCnic(key: string): Patient -> bool {
    (rec: Patient) => rec.active && rec.cnic == key
  }

  /** Release. The first active record carrying the identifier has its bed
      slot freed and is deactivated; the deactivated record is what the
      release log receives. Without such a record nothing changes. */
  function Release(t: Table, id: int): (r: Step)
    requires WellFormed(t)
    ensures WellFormed(r.table)
    ensures r.table.lastPatientId == t.lastPatientId
    ensures r.response.PatientReleased? || r.response.InvalidPatientId?
    ensures |r.audit| == (if r.response.PatientReleased? then 1 else 0)
    ensures r.response.PatientReleased? ==>
      exists i :: 0 <= i < |t.patients| && t.patients[i].active && t.patients[i].patientId == id
                  && r.table.patients == t.patients[i := t.patients[i].(active := false)]
                  && r.audit == [t.patients[i].(active := false)]
                  && BedFreed(t, r.table, t.patients[i].bedNumber)
  {
    match First(t.patients, ActiveWithId(id))
    case None => Step(t, InvalidPatientId, [])
    case Some(i) =>
      var released := t.patients[i].(active := false);
      var freed := Vacate(t, t.patients[i].bedNumber);
      Step(freed.(patients := freed.patients[i := released]), PatientReleased, [released])
  }

  /** Search by CNIC. It only reads the table, so it returns a response
      and no new table. */
  function Search(t: Table, key: string): (r: Response)
    ensures r.Found? || r.PatientNotFound?
    ensures r.Found? ==>
      exists i :: 0 <= i < |t.patients| && t.patients[i].active
                  && t.patients[i].cnic == key && r.summary == SummaryOf(t.patients[i])
  {
    match First(t.patients, ActiveWithCnic(key))
    case None => PatientNotFound
    case Some(i) => Found(SummaryOf(t.patients[i]))
  }

  // ---------------------------------------------------------------------
  // Admission

  /** When a regular bed is free the patient gets the lowest free one,
      critical or not: the bed number is the slot index plus one and only
      that regular slot changes. */
  lemma InsertTakesLowestRegularBed(t: Table, p: Patient, i: int)
    requires WellFormed(t)
    requires LowestFree(t.regularBeds, i)
    ensures var r := Insert(t, p);
      && r.table.regularBeds == t.regularBeds[i := t.lastPatientId]
      && r.table.emergencyBeds == t.emergencyBeds
      && 1 <= i + 1 <= RegularBeds
      && (0 <= t.lastPatientId < MaxPatients ==>
            r.response == Admitted(t.lastPatientId, i + 1)
            && r.table.patients == t.patients[t.lastPatientId := AdmittedRecord(p, t.lastPatientId, i + 1)])
  {
  }

  /** With every regular bed occupied, a patient whose critical flag is 1
      gets the lowest free emergency slot, numbered slot + 11, and only
      that emergency slot changes. */
  lemma InsertOverflowsToEmergencyBed(t: Table, p: Patient, j: int)
    requires WellFormed(t)
    requires AllOccupied(t.regularBeds) && p.critical == 1
    requires LowestFree(t.emergencyBeds, j)
    ensures var r := Insert(t, p);
      && r.table.emergencyBeds == t.emergencyBeds[j := t.lastPatientId]
      && r.table.regularBeds == t.regularBeds
      && RegularBeds + 1 <= j + RegularBeds + 1 <= RegularBeds + EmergencyBeds
      && (0 <= t.lastPatientId < MaxPatients ==>
            r.response == Admitted(t.lastPatientId, j + RegularBeds + 1)
            && r.table.patients ==
               t.patients[t.lastPatientId := AdmittedRecord(p, t.lastPatientId, j + RegularBeds + 1)])
  {
  }

  /** An admitted patient's bed is in 1..13; a regular bed is the lowest
      free regular slot; an emergency bed went to a patient whose critical
      flag is 1, only when no regular slot was free, and is the lowest free
      emergency slot. */
  lemma AdmittedBedIsFirstFit(t: Table, p: Patient)
    requires WellFormed(t)
    ensures var r := Insert(t, p);
      r.response.Admitted? ==>
        && r.response.id == t.lastPatientId
        && 1 <= r.response.bed <= RegularBeds + EmergencyBeds
        && (r.response.bed <= RegularBeds ==> LowestFree(t.regularBeds, r.response.bed - 1))
        && (r.response.bed > RegularBeds ==>
              && p.critical == 1
              && AllOccupied(t.regularBeds)
              && LowestFree(t.emergencyBeds, r.response.bed - RegularBeds - 1))
  {
  }

  /** A patient whose critical flag is not 1 never touches an emergency
      bed, even when that means being turned away. */
  lemma NonCriticalNeverGetsEmergencyBed(t: Table, p: Patient)
    requires WellFormed(t)
    requires p.critical != 1
    ensures var r := Insert(t, p);
      && r.table.emergencyBeds == t.emergencyBeds
      && (r.response.Admitted? ==> r.response.bed <= RegularBeds)
  {
  }

  /** The admission is refused exactly when no regular bed is free and the
      patient is not critical or no emergency bed is free either; a refusal
      changes nothing but the counter. */
  lemma InsertRejectedExactlyWhenFull(t: Table, p: Patient)
    requires WellFormed(t)
    ensures var r := Insert(t, p);
      r.response == NoBedsAvailable <==>
        AllOccupied(t.regularBeds) && (p.critical != 1 || AllOccupied(t.emergencyBeds))
    ensures var r := Insert(t, p);
      r.response == NoBedsAvailable ==> r.table == t.(lastPatientId := t.lastPatientId + 1)
  {
  }

  /** A successful admission writes exactly one bed slot, which was free
      and now holds the new identifier, and stores exactly one record, at
      the identifier's index: the request's name, age, CNIC, phone and
      critical flag, marked active with the identifier and the bed number.
      The counter moves on by one. */
  lemma AdmissionWritesOneSlotAndOneRecord(t: Table, p: Patient)
    requires WellFormed(t)
    ensures var r := Insert(t, p);
      r.response.Admitted? ==>
        var id := t.lastPatientId;
        var bed := r.response.bed;
        && 0 <= id < MaxPatients
        && r.table.patients == t.patients[id := AdmittedRecord(p, id, bed)]
        && r.table.patients[id].name == p.name
        && r.table.patients[id].age == p.age
        && r.table.patients[id].cnic == p.cnic
        && r.table.patients[id].phone == p.phone
        && r.table.patients[id].critical == p.critical
        && r.table.patients[id].active
        && r.table.patients[id].patientId == id
        && r.table.patients[id].bedNumber == bed
        && r.table.lastPatientId == id + 1
        && (bed <= RegularBeds ==>
              && t.regularBeds[bed - 1] == Free
              && r.table.regularBeds == t.regularBeds[bed - 1 := id]
              && r.table.emergencyBeds == t.emergencyBeds)
        && (bed > RegularBeds ==>
              && t.emergencyBeds[bed - RegularBeds - 1] == Free
              && r.table.emergencyBeds == t.emergencyBeds[bed - RegularBeds - 1 := id]
              && r.table.regularBeds == t.regularBeds)
  {
  }

  /** The identifier is stored without a bound check: once the counter has
      reached the table's capacity, any admission that finds a bed stores
      past the end of the patient table. Nothing is stored in range. */
  lemma InsertPastCapacityOverruns(t: Table, p: Patient)
    requires WellFormed(t)
    ensures var r := Insert(t, p);
      r.response.IdOutOfRange? <==>
        !(0 <= t.lastPatientId < MaxPatients) && Choose(t, p.critical) != NoBed
    ensures var r := Insert(t, p);
      r.response.IdOutOfRange? ==>
        r.response.badId == t.lastPatientId && r.table.patients == t.patients
  {
  }

  // ---------------------------------------------------------------------
  // Release

  /** Releasing an identifier whose first active record is at index `i`
      frees the slot that record's bed number designates, deactivates the
      record, logs it once, and changes nothing else. */
  lemma ReleaseFreesFirstMatch(t: Table, id: int, i: int)
    requires WellFormed(t)
    requires IsFirst(t.patients, ActiveWithId(id), i)
    ensures var r := Release(t, id);
      var rec := t.patients[i];
      var bed := rec.bedNumber;
      && r.response == PatientReleased
      && r.table.patients == t.patients[i := rec.(active := false)]
      && r.audit == [rec.(active := false)]
      && r.table.lastPatientId == t.lastPatientId
      && (1 <= bed <= RegularBeds ==>
            r.table.regularBeds == t.regularBeds[bed - 1 := Free]
            && r.table.emergencyBeds == t.emergencyBeds)
      && (RegularBeds < bed <= RegularBeds + EmergencyBeds ==>
            r.table.emergencyBeds == t.emergencyBeds[bed - RegularBeds - 1 := Free]
            && r.table.regularBeds == t.regularBeds)
      && (!(1 <= bed <= RegularBeds + EmergencyBeds) ==>
            r.table.regularBeds == t.regularBeds && r.table.emergencyBeds == t.emergencyBeds)
  {
    FirstIsUnique(t.patients, ActiveWithId(id), i);
  }

  /** A release fails exactly when no active record carries the
      identifier, and a failed release leaves the table as it was. */
  lemma ReleaseFailsExactlyWithoutActiveRecord(t: Table, id: int)
    requires WellFormed(t)
    ensures Release(t, id).response == InvalidPatientId <==>
      forall i :: 0 <= i < |t.patients| ==> !(t.patients[i].active && t.patients[i].patientId == id)
    ensures Release(t, id).response == InvalidPatientId ==>
      Release(t, id).table == t && Release(t, id).audit == []
  {
    var f := ActiveWithId(id);
    if forall i :: 0 <= i < |t.patients| ==> !(t.patients[i].active && t.patients[i].patientId == id) {
      assert forall i :: 0 <= i < |t.patients| ==> !f(t.patients[i]);
    }
  }

  // ---------------------------------------------------------------------
  // Search

  /** A search reports the lowest-index active record with the CNIC. */
  lemma SearchReportsFirstMatch(t: Table, key: string, i: int)
    requires IsFirst(t.patients, ActiveWithCnic(key), i)
    ensures Search(t, key) == Found(SummaryOf(t.patients[i]))
  {
    FirstIsUnique(t.patients, ActiveWithCnic(key), i);
  }

  /** A search misses exactly when no active record has the CNIC. */
  lemma SearchMissesExactlyWithoutActiveRecord(t: Table, key: string)
    ensures Search(t, key) == PatientNotFound <==>
      forall i :: 0 <= i < |t.patients| ==> !(t.patients[i].active && t.patients[i].cnic == key)
  {
    var f := ActiveWithCnic(key);
    if forall i :: 0 <= i < |t.patients| ==> !(t.patients[i].active && t.patients[i].cnic == key) {
      assert forall i :: 0 <= i < |t.patients| ==> !f(t.patients[i]);
    }
  }
}

=== FILE: hazards.dfy ===
/** Two hazards of the ward server, stated as properties of the model
    rather than repaired in it.

    1. Identifiers start at 0 and 0 is also the value of a free bed slot,
       so the first patient's bed keeps reading as free and the next
       admission is given the same bed.
    2. The counter is used as an index into the 100-record patient table
       without a bound check, and refused admissions advance it too, so a
       server that has turned patients away long enough stores past the
       end of the table on its next successful admission.
 */
module Hazards {
  import opened Scan
  import opened Ward
  import opened Allocator
  import opened Occupancy
  import opened Server

  /** Every active patient's bed slot holds that patient's identifier: the
      occupancy rule one would expect the table to keep. */
  ghost predicate ActiveOccupyTheirBeds(t: Table)
    requires WellFormed(t)
  {
    forall i :: 0 <= i < |t.patients| && t.patients[i].active ==>
      var bed := t.patients[i].bedNumber;
      && (1 <= bed <= RegularBeds ==> t.regularBeds[bed - 1] == t.patients[i].patientId)
      && (RegularBeds < bed <= RegularBeds + EmergencyBeds ==>
            t.emergencyBeds[bed - RegularBeds - 1] == t.patients[i].patientId)
  }

  /** From the start-up table, the first two admissions both receive bed 1:
      patient 0 is written into slot 0 as the value 0, which still reads
      as free. The table still satisfies the invariant, yet patient 0 no
      longer occupies its bed. */
  lemma FirstTwoPatientsShareBedOne(a: Patient, b: Patient)
    ensures var s1 := Insert(Empty(), a);
      var s2 := Insert(s1.table, b);
      && s1.response == Admitted(0, 1)
      && s2.response == Admitted(1, 1)
      && s2.table.patients[0].active && s2.table.patients[0].bedNumber == 1
      && s2.table.patients[1].active && s2.table.patients[1].bedNumber == 1
      && Inv(s2.table)
      && !ActiveOccupyTheirBeds(s2.table)
  {
    var t0 := Empty();
    EmptyIsConsistent();
    InsertTakesLowestRegularBed(t0, a, 0);
    var s1 := Insert(t0, a);
    assert s1.table.regularBeds == t0.regularBeds;
    InsertPreservesInv(t0, a);
    InsertTakesLowestRegularBed(s1.table, b, 0);
    var s2 := Insert(s1.table, b);
    InsertPreservesInv(s1.table, b);
    assert s2.table.patients[0] == s1.table.patients[0];
    assert s2.table.regularBeds[0] == 1;
  }

  /** Releasing patient 0 then frees the bed that patient 1 is lying in:
      patient 1 stays active in bed 1 while slot 1 reads as free, and the
      next admission is given bed 1 a third time. */
  lemma ReleasingPatientZeroEvictsBedmate(a: Patient, b: Patient, c: Patient)
    ensures var s2 := Insert(Insert(Empty(), a).table, b);
      var s3 := Release(s2.table, 0);
      var s4 := Insert(s3.table, c);
      && s3.response == PatientReleased
      && s3.table.regularBeds[0] == Free
      && s3.table.patients[1].active && s3.table.patients[1].bedNumber == 1
      && s4.response == Admitted(2, 1)
  {
    FirstTwoPatientsShareBedOne(a, b);
    var s2 := Insert(Insert(Empty(), a).table, b);
    var t := s2.table;
    assert IsFirst(t.patients, ActiveWithId(0), 0);
    ReleaseFreesFirstMatch(t, 0, 0);
    var s3 := Release(t, 0);
    assert s3.table.patients[1] == t.patients[1];
    InsertTakesLowestRegularBed(s3.table, c, 0);
  }

  /** With every bed taken, a run of admission requests refuses each one,
      and each refusal still consumes an identifier. */
  lemma {:induction false} FullWardOnlyAdvancesCounter(t: Table, reqs: seq<Request>)
    requires WellFormed(t)
    requires AllOccupied(t.regularBeds) && AllOccupied(t.emergencyBeds)
    requires forall k :: 0 <= k < |reqs| ==> reqs[k].command == "insert"
    ensures Run(t, reqs).table == t.(lastPatientId := t.lastPatientId + |reqs|)
    ensures Run(t, reqs).responses == seq(|reqs|, _ => NoBedsAvailable)
    decreases |reqs|
  {
    if reqs != [] {
      var s := Process(t, reqs[0]);
      assert s.response == NoBedsAvailable;
      InsertRejectedExactlyWhenFull(t, reqs[0].patient);
      assert s.table == t.(lastPatientId := t.lastPatientId + 1);
      FullWardOnlyAdvancesCounter(s.table, reqs[1..]);
      RunUnfoldsResponses(t, reqs);
      RunUnfoldsTable(t, reqs);
    }
  }

  /** A full ward that refuses enough admission requests to push the
      counter to the table's capacity stores past the end of the patient
      table as soon as a regular bed is released and someone is admitted. */
  lemma RefusalsLeadToOverrun(t: Table, reqs: seq<Request>, v: int, p: Patient)
    requires Inv(t)
    requires AllOccupied(t.regularBeds) && AllOccupied(t.emergencyBeds)
    requires forall k :: 0 <= k < |reqs| ==> reqs[k].command == "insert"
    requires t.lastPatientId + |reqs| >= MaxPatients
    requires exists s :: 0 <= s < RegularBeds && t.regularBeds[s] == v
    ensures Release(Run(t, reqs).table, v).response == PatientReleased
    ensures Insert(Release(Run(t, reqs).table, v).table, p).response
      == IdOutOfRange(t.lastPatientId + |reqs|)
  {
    FullWardOnlyAdvancesCounter(t, reqs);
    var u := Run(t, reqs).table;
    assert Inv(u);
    var s :| 0 <= s < RegularBeds && t.regularBeds[s] == v;
    assert PointsBack(u, v, s + 1);
    ActiveMatchIsAtOwnIndex(u, v, v);
    ReleaseFreesFirstMatch(u, v, v);
    var w := Release(u, v).table;
    assert w.regularBeds[s] == Free;
    InsertPastCapacityOverruns(w, p);
  }
}

=== FILE: occupancy.dfy ===
/** What the allocation table keeps true from one request to the next.

    The identifier counter starts at 0 and 0 is also the free-slot value,
    so patient 0 occupies a bed that still reads as free. The property
    "every active patient's bed slot holds that patient's identifier"
    therefore does not survive (see the Hazards module). What does survive
    is the other direction: every slot that reads as occupied belongs to an
    active patient whose recorded bed is that very slot.
 */
module Occupancy {
  import opened Scan
  import opened Ward
  import opened Allocator

  /** Slot value `v`, found at the slot numbered `bed`, belongs to an
      active record whose bed number is `bed`. */
  ghost predicate PointsBack(t: Table, v: int, bed: int) {
    0 <= v < |t.patients| && t.patients[v].active && t.patients[v].bedNumber == bed
  }

  /** Every active record sits at the index of its own identifier, below
      the counter, with a bed number in 1..13. */
  ghost predicate ActiveRecordsIndexed(t: Table) {
    forall i :: 0 <= i < |t.patients| && t.patients[i].active ==>
      && t.patients[i].patientId == i
      && i < t.lastPatientId
      && 1 <= t.patients[i].bedNumber <= RegularBeds + EmergencyBeds
  }

  /** Every occupied slot of either bed array points back to its occupant. */
  ghost predicate SlotsPointBack(t: Table) {
    && (forall s :: 0 <= s < |t.regularBeds| && t.regularBeds[s] != Free ==>
          PointsBack(t, t.regularBeds[s], s + 1))
    && (forall s :: 0 <= s < |t.emergencyBeds| && t.emergencyBeds[s] != Free ==>
          PointsBack(t, t.emergencyBeds[s], s + RegularBeds + 1))
  }

  ghost predicate Inv(t: Table) {
    && WellFormed(t)
    && t.lastPatientId >= 0
    && ActiveRecordsIndexed(t)
    && SlotsPointBack(t)
  }

  /** The zero-filled table at start-up satisfies the invariant. */
  lemma EmptyIsConsistent()
    ensures Inv(Empty())
  {
  }

  /** An admission that stays inside the patient table keeps the invariant:
      the new record is indexed by its identifier, its slot points back to
      it, and no earlier occupant shares its index since every active
      record is below the counter. */
  lemma InsertPreservesInv(t: Table, p: Patient)
    requires Inv(t)
    requires !Insert(t, p).response.IdOutOfRange?
    ensures Inv(Insert(t, p).table)
  {
    // Every active record lies below the counter, so the new record's index
    // was not in use.
    assert forall v :: 0 <= v < |t.patients| && t.patients[v].active ==> v != t.lastPatientId;
  }

  /** Under the invariant the only active record that can carry an
      identifier is the one stored at that identifier's index. */
  lemma ActiveMatchIsAtOwnIndex(t: Table, id: int, i: int)
    requires Inv(t)
    requires 0 <= i < |t.patients| && ActiveWithId(id)(t.patients[i])
    ensures i == id && IsFirst(t.patients, ActiveWithId(id), id)
  {
    forall j | 0 <= j < id
      ensures !ActiveWithId(id)(t.patients[j])
    {
    }
  }

  /** A release keeps the invariant: the only slot that pointed to the
      released record is the one its bed number designates, and that slot
      is the one freed. */
  lemma ReleasePreservesInv(t: Table, id: int)
    requires Inv(t)
    ensures Inv(Release(t, id).table)
  {
  }

  /** No identifier occupies two slots: distinct occupied slots, in either
      or both arrays, hold distinct identifiers. */
  lemma OccupiedSlotsHoldDistinctIds(t: Table)
    requires Inv(t)
    ensures forall s, s' :: 0 <= s < s' < |t.regularBeds| && t.regularBeds[s] != Free ==>
      t.regularBeds[s] != t.regularBeds[s']
    ensures forall s, s' :: 0 <= s < s' < |t.emergencyBeds| && t.emergencyBeds[s] != Free ==>
      t.emergencyBeds[s] != t.emergencyBeds[s']
    ensures forall s, e ::
      0 <= s < |t.regularBeds| && 0 <= e < |t.emergencyBeds| && t.regularBeds[s] != Free ==>
        t.regularBeds[s] != t.emergencyBeds[e]
  {
  }

  /** Releasing the same identifier twice fails the second time. */
  lemma SecondReleaseFails(t: Table, id: int)
    requires Inv(t)
    ensures Release(Release(t, id).table, id).response == InvalidPatientId
  {
    var r := Release(t, id);
    ReleaseFailsExactlyWithoutActiveRecord(t, id);
    ReleaseFailsExactlyWithoutActiveRecord(r.table, id);
    if r.response == PatientReleased {
      var i :| 0 <= i < |t.patients| && ActiveWithId(id)(t.patients[i]);
      ActiveMatchIsAtOwnIndex(t, id, i);
      ReleaseFreesFirstMatch(t, id, i);
      forall j | 0 <= j < |r.table.patients|
        ensures !(r.table.patients[j].active && r.table.patients[j].patientId == id)
      {
        if j != i && r.table.patients[j].active && r.table.patients[j].patientId == id {
          ActiveMatchIsAtOwnIndex(t, id, j);
        }
      }
    }
  }

  /** Once released, a record never becomes active again: admissions only
      store at the counter's index, which is above every identifier already
      handed out. */
  lemma ReleasedStaysReleased(t: Table, p: Patient, id: int, i: int)
    requires Inv(t)
    requires 0 <= i < t.lastPatientId && i < |t.patients| && !t.patients[i].active
    ensures !Insert(t, p).table.patients[i].active
    ensures !Release(t, id).table.patients[i].active
  {
    var r := Release(t, id);
    if r.response == PatientReleased {
      var k :| 0 <= k < |t.patients| && ActiveWithId(id)(t.patients[k]) by {
        ReleaseFailsExactlyWithoutActiveRecord(t, id);
      }
      ActiveMatchIsAtOwnIndex(t, id, k);
      ReleaseFreesFirstMatch(t, id, k);
    }
  }

  /** A released regular bed goes to the next admission when every other
      regular bed is taken (for example, release the patient in bed 5 and
      admit someone new: the newcomer gets bed 5). The occupant must not be
      patient 0, whose slot already reads as free. */
  lemma ReleasedBedIsReused(t: Table, v: int, p: Patient)
    requires Inv(t)
    requires 0 <= t.lastPatientId < MaxPatients
    requires exists s :: 0 <= s < RegularBeds && t.regularBeds[s] == v
    requires v != Free
    requires forall s :: 0 <= s < RegularBeds && t.regularBeds[s] != v ==> t.regularBeds[s] != Free
    ensures var r1 := Release(t, v);
      var r2 := Insert(r1.table, p);
      && r1.response == PatientReleased
      && r2.response == Admitted(t.lastPatientId, t.patients[v].bedNumber)
  {
    var s :| 0 <= s < RegularBeds && t.regularBeds[s] == v;
    assert PointsBack(t, v, s + 1);
    ActiveMatchIsAtOwnIndex(t, v, v);
    ReleaseFreesFirstMatch(t, v, v);
    var u := Release(t, v).table;
    assert u.regularBeds == t.regularBeds[s := Free];
    assert u.lastPatientId == t.lastPatientId;
    InsertTakesLowestRegularBed(u, p, s);
  }
}

=== FILE: scan.dfy ===
/** First-fit linear scans.

    Every lookup in the ward server is the same loop: walk an array from
    index 0 upwards and stop at the first element that satisfies a test.
    This module states that loop once, as a recursive function whose
    contract says exactly which index it stops at.
 */
module Scan {

  datatype Option<+T> = None | Some(value: T)

  /** The index of the first element of `s` at or after `from` that
      satisfies `p`, or None when no such element exists. */
  function FirstFrom<T>(s: seq<T>, p: T -> bool, from: nat): (r: Option<nat>)
    requires from <= |s|
    ensures r.Some? ==> from <= r.value < |s| && p(s[r.value])
    ensures r.Some? ==> forall j :: from <= j < r.value ==> !p(s[j])
    ensures r.None? <==> forall j :: from <= j < |s| ==> !p(s[j])
    decreases |s| - from
  {
    if from == |s| then None
    else if p(s[from]) then Some(from)
    else FirstFrom(s, p, from + 1)
  }

  /** The lowest index of `s` whose element satisfies `p`. */
  function First<T>(s: seq<T>, p: T -> bool): (r: Option<nat>)
    ensures r.Some? ==> r.value < |s| && p(s[r.value])
    ensures r.Some? ==> forall j :: 0 <= j < r.value ==> !p(s[j])
    ensures r.None? <==> forall j :: 0 <= j < |s| ==> !p(s[j])
  {
    FirstFrom(s, p, 0)
  }

  /** `i` is the lowest index of `s` whose element satisfies `p`. */
  ghost predicate IsFirst<T>(s: seq<T>, p: T -> bool, i: int) {
    0 <= i < |s| && p(s[i]) && forall j :: 0 <= j < i ==> !p(s[j])
  }

  /** The scan finds an index exactly when it is the first one: the
      declarative description determines the result. */
  lemma FirstIsUnique<T>(s: seq<T>, p: T -> bool, i: int)
    requires IsFirst(s, p, i)
    ensures First(s, p) == Some(i)
  {
    assert p(s[i]);
  }
}

=== FILE: server.dfy ===
/** The request dispatcher of the ward server and runs of requests.

    Each request is served by its own thread, but every operation holds the
    state mutex for its whole duration, so any concurrent execution is
    equivalent to serving the requests one after another in the order the
    threads obtained the mutex. A run is such an order.
 */
module Server {
  import opened Ward
  import opened Allocator
  import opened Occupancy

  /** A request frame: the command word, the patient record (the whole
      record for an admission, only its identifier matters for a release)
      and the CNIC a search looks for. */
  datatype Request = Request(command: string, patient: Patient, searchCnic: string)

  /** Dispatch on the command word; anything else is answered with
      `UnknownCommand` and touches nothing. */
  function Process(t: Table, req: Request): (r: Step)
    requires WellFormed(t)
    ensures WellFormed(r.table)
    ensures r.table.lastPatientId == t.lastPatientId + (if req.command == "insert" then 1 else 0)
    ensures r.response.Admitted? ==> r.response.id == t.lastPatientId
    ensures |r.audit| == (if r.response == PatientReleased then 1 else 0)
    // An insert admits the request's patient, refusing exactly when no bed
    // is left for that patient's critical flag.
    ensures req.command == "insert" ==>
      (r.response == NoBedsAvailable <==>
         AllOccupied(t.regularBeds) && (req.patient.critical != 1 || AllOccupied(t.emergencyBeds)))
    ensures req.command == "insert" ==>
      r.response.Admitted? || r.response == NoBedsAvailable || r.response.IdOutOfRange?
    ensures req.command == "insert" && r.response.IdOutOfRange? ==>
      !(0 <= t.lastPatientId < MaxPatients)
    ensures req.command == "insert" && r.response.Admitted? ==>
      && 0 <= r.response.id < |r.table.patients|
      && r.table.patients[r.response.id].active
      && r.table.patients[r.response.id].name == req.patient.name
      && r.table.patients[r.response.id].age == req.patient.age
      && r.table.patients[r.response.id].cnic == req.patient.cnic
      && r.table.patients[r.response.id].phone == req.patient.phone
      && r.table.patients[r.response.id].critical == req.patient.critical
    // An admitted patient's bed is the first free slot of the array the
    // code scanned; that slot now holds the identifier and no other record
    // or slot changes.
    ensures req.command == "insert" && r.response.Admitted? ==>
      var id := r.response.id;
      var bed := r.response.bed;
      && r.table.patients == t.patients[id := r.table.patients[id]]
      && r.table.patients[id].bedNumber == bed
      && 1 <= bed <= RegularBeds + EmergencyBeds
      && (bed <= RegularBeds ==>
            && LowestFree(t.regularBeds, bed - 1)
            && r.table.regularBeds == t.regularBeds[bed - 1 := id]
            && r.table.emergencyBeds == t.emergencyBeds)
      && (bed > RegularBeds ==>
            && req.patient.critical == 1
            && AllOccupied(t.regularBeds)
            && LowestFree(t.emergencyBeds, bed - RegularBeds - 1)
            && r.table.emergencyBeds == t.emergencyBeds[bed - RegularBeds - 1 := id]
            && r.table.regularBeds == t.regularBeds)
    // A release acts on the identifier carried in the request's record.
    ensures req.command == "release" ==>
      (r.response == PatientReleased <==>
         exists i :: 0 <= i < |t.patients| && t.patients[i].active
                     && t.patients[i].patientId == req.patient.patientId)
    ensures req.command == "release" && r.response == PatientReleased ==>
      !r.audit[0].active && r.audit[0].patientId == req.patient.patientId
    // A successful release deactivates that record, frees the bed slot its
    // bed number designates, logs the released record and changes nothing
    // else.
    ensures req.command == "release" && r.response == PatientReleased ==>
      exists i :: 0 <= i < |t.patients| && t.patients[i].active
                  && t.patients[i].patientId == req.patient.patientId
                  && r.table.patients == t.patients[i := t.patients[i].(active := false)]
                  && r.audit == [t.patients[i].(active := false)]
                  && BedFreed(t, r.table, t.patients[i].bedNumber)
    // A search looks up the request's CNIC and changes nothing.
    ensures req.command == "search" ==>
      && r.table == t
      && (r.response == PatientNotFound <==>
            forall i :: 0 <= i < |t.patients| ==>
              !(t.patients[i].active && t.patients[i].cnic == req.searchCnic))
    ensures req.command == "search" && r.response.Found? ==>
      exists i :: 0 <= i < |t.patients| && t.patients[i].active
                  && t.patients[i].cnic == req.searchCnic && r.response.summary == SummaryOf(t.patients[i])
  {
    if req.command == "insert" then
      InsertRejectedExactlyWhenFull(t, req.patient);
      AdmissionWritesOneSlotAndOneRecord(t, req.patient);
      InsertPastCapacityOverruns(t, req.patient);
      AdmittedBedIsFirstFit(t, req.patient);
      Insert(t, req.patient)
    else if req.command == "release" then
      ReleaseFailsExactlyWithoutActiveRecord(t, req.patient.patientId);
      Release(t, req.patient.patientId)
    else if req.command == "search" then
      SearchMissesExactlyWithoutActiveRecord(t, req.searchCnic);
      Step(t, Search(t, req.searchCnic), [])
    else
      Step(t, UnknownCommand, [])
  }

  /** The number of successful releases among the responses. */
  function CountReleased(rs: seq<Response>): nat {
    if rs == [] then 0
    else (if rs[0] == PatientReleased then 1 else 0) + CountReleased(rs[1..])
  }

  datatype Trace = Trace(table: Table, responses: seq<Response>, audit: seq<Patient>)

  /** Serves the requests in order. An admission that would store past the
      end of the patient table is undefined behaviour in the C server, so
      the run ends with that response. */
  function Run(t: Table, reqs: seq<Request>): (r: Trace)
    requires WellFormed(t)
    ensures WellFormed(r.table)
    ensures |r.responses| <= |reqs|
    ensures |r.responses| < |reqs| ==>
      |r.responses| > 0 && r.responses[|r.responses| - 1].IdOutOfRange?
    ensures |r.audit| == CountReleased(r.responses)
    decreases |reqs|
  {
    if reqs == [] then Trace(t, [], [])
    else
      var s := Process(t, reqs[0]);
      if s.response.IdOutOfRange? then
        Trace(s.table, [s.response], s.audit)
      else
        var rest := Run(s.table, reqs[1..]);
        assert ([s.response] + rest.responses)[1..] == rest.responses;
        Trace(rest.table, [s.response] + rest.responses, s.audit + rest.audit)
  }

  /** One step of a run that does not overrun the patient table: the
      first response, followed by the responses of the rest of the run. */
  lemma RunUnfoldsResponses(t: Table, reqs: seq<Request>)
    requires WellFormed(t) && reqs != []
    requires !Process(t, reqs[0]).response.IdOutOfRange?
    ensures Run(t, reqs).responses
      == [Process(t, reqs[0]).response] + Run(Process(t, reqs[0]).table, reqs[1..]).responses
  {
  }

  /** One step of a run that does not overrun the patient table: the rest
      of the run decides the final table. */
  lemma RunUnfoldsTable(t: Table, reqs: seq<Request>)
    requires WellFormed(t) && reqs != []
    requires !Process(t, reqs[0]).response.IdOutOfRange?
    ensures Run(t, reqs).table == Run(Process(t, reqs[0]).table, reqs[1..]).table
  {
  }

  /** A command other than insert, release or search changes nothing. */
  lemma UnknownCommandChangesNothing(t: Table, req: Request)
    requires WellFormed(t)
    requires req.command != "insert" && req.command != "release" && req.command != "search"
    ensures Process(t, req) == Step(t, UnknownCommand, [])
  {
  }

  /** A search never changes the table and logs nothing. */
  lemma SearchIsReadOnly(t: Table, req: Request)
    requires WellFormed(t)
    requires req.command == "search"
    ensures Process(t, req).table == t && Process(t, req).audit == []
    ensures Process(t, req).response.Found? || Process(t, req).response == PatientNotFound
  {
  }

  lemma ProcessPreservesInv(t: Table, req: Request)
    requires Inv(t)
    requires !Process(t, req).response.IdOutOfRange?
    ensures Inv(Process(t, req).table)
  {
    if req.command == "insert" {
      InsertPreservesInv(t, req.patient);
    } else if req.command == "release" {
      ReleasePreservesInv(t, req.patient.patientId);
    }
  }

  /** Every run from a consistent table ends in a consistent table, unless
      it ended by overrunning the patient table. */
  lemma {:induction false} RunPreservesInv(t: Table, reqs: seq<Request>)
    requires Inv(t)
    ensures var r := Run(t, reqs);
      (r.responses == [] || !r.responses[|r.responses| - 1].IdOutOfRange?) ==> Inv(r.table)
    decreases |reqs|
  {
    if reqs != [] {
      var s := Process(t, reqs[0]);
      if !s.response.IdOutOfRange? {
        ProcessPreservesInv(t, reqs[0]);
        RunPreservesInv(s.table, reqs[1..]);
        var rest := Run(s.table, reqs[1..]);
        if rest.responses != [] {
          assert Run(t, reqs).responses[|Run(t, reqs).responses| - 1]
              == rest.responses[|rest.responses| - 1];
        }
      }
    }
  }

  /** Identifiers handed out in a run lie between the counter's value
      before the run and its value after it. */
  lemma {:induction false} RunAdmittedIdsInRange(t: Table, reqs: seq<Request>)
    requires WellFormed(t)
    ensures t.lastPatientId <= Run(t, reqs).table.lastPatientId
    ensures forall i :: 0 <= i < |Run(t, reqs).responses| && Run(t, reqs).responses[i].Admitted? ==>
      t.lastPatientId <= Run(t, reqs).responses[i].id < Run(t, reqs).table.lastPatientId
    decreases |reqs|
  {
    if reqs != [] && !Process(t, reqs[0]).response.IdOutOfRange? {
      var s := Process(t, reqs[0]);
      RunAdmittedIdsInRange(s.table, reqs[1..]);
      RunUnfoldsResponses(t, reqs);
      RunUnfoldsTable(t, reqs);
      var rs := Run(t, reqs).responses;
      var rest := Run(s.table, reqs[1..]).responses;
      forall i | 0 <= i < |rs| && rs[i].Admitted?
        ensures t.lastPatientId <= rs[i].id < Run(t, reqs).table.lastPatientId
      {
        if i > 0 {
          assert rs[i] == rest[i - 1];
        }
      }
    }
  }

  /** Identifiers handed out along a run strictly increase, admissions
      refused for lack of a bed consuming identifiers too. */
  lemma {:induction false} RunAdmittedIdsIncrease(t: Table, reqs: seq<Request>)
    requires WellFormed(t)
    ensures forall i, j ::
      0 <= i < j < |Run(t, reqs).responses|
      && Run(t, reqs).responses[i].Admitted? && Run(t, reqs).responses[j].Admitted? ==>
        Run(t, reqs).responses[i].id < Run(t, reqs).responses[j].id
    decreases |reqs|
  {
    if reqs != [] && !Process(t, reqs[0]).response.IdOutOfRange? {
      var s := Process(t, reqs[0]);
      RunAdmittedIdsIncrease(s.table, reqs[1..]);
      RunAdmittedIdsInRange(s.table, reqs[1..]);
      RunUnfoldsResponses(t, reqs);
      var rs := Run(t, reqs).responses;
      var rest := Run(s.table, reqs[1..]).responses;
      forall i, j | 0 <= i < j < |rs| && rs[i].Admitted? && rs[j].Admitted?
        ensures rs[i].id < rs[j].id
      {
        assert rs[j] == rest[j - 1];
        if i > 0 {
          assert rs[i] == rest[i - 1];
        }
      }
    }
  }
}

=== FILE: ward.dfy ===
/** The shared allocation table of the ward server: the patient records,
    the identifier counter and the two bed arrays, together with the
    responses the server sends back to a client.
 */
module Ward {

  /** Capacity of the patient table (server.c:17). */
  const MaxPatients: nat := 100
  /** Number of regular beds; regular bed numbers are 1..10 (server.c:18). */
  const RegularBeds: nat := 10
  /** Number of emergency beds; emergency bed numbers are 11..13 (server.c:19). */
  const EmergencyBeds: nat := 3
  /** A bed slot holding this value reads as unoccupied. It is also the
      identifier the counter hands to the very first patient. */
  const Free: int := 0

  /** One patient record. The C record uses an int for `active` that the
      server only ever sets to 0 or 1; `critical` stays an int because the
      client may send any number and only the value 1 counts as critical. */
  datatype Patient = Patient(
    name: string,
    age: int,
    patientId: int,
    cnic: string,
    phone: string,
    bedNumber: int,
    critical: int,
    active: bool)

  /** A record slot as the zero-filled shared memory holds it at start-up. */
  const Blank := Patient("", 0, 0, "", "", 0, 0, false)

  /** The shared state: `patients` is indexed by identifier and each bed
      slot holds the identifier of its occupant or `Free`. */
  datatype Table = Table(
    patients: seq<Patient>,
    lastPatientId: int,
    regularBeds: seq<int>,
    emergencyBeds: seq<int>)

  /** The arrays have the fixed sizes of the C structure. */
  predicate WellFormed(t: Table) {
    && |t.patients| == MaxPatients
    && |t.regularBeds| == RegularBeds
    && |t.emergencyBeds| == EmergencyBeds
  }

  /** The table right after the server zero-fills the shared memory. */
  function Empty(): (t: Table)
    ensures WellFormed(t)
    ensures t.lastPatientId == 0
    ensures forall i :: 0 <= i < |t.patients| ==> !t.patients[i].active
    ensures forall s :: 0 <= s < |t.regularBeds| ==> t.regularBeds[s] == Free
    ensures forall s :: 0 <= s < |t.emergencyBeds| ==> t.emergencyBeds[s] == Free
  {
    Table(seq(MaxPatients, _ => Blank), 0, seq(RegularBeds, _ => Free), seq(EmergencyBeds, _ => Free))
  }

  /** What a search reports about the record it found. */
  datatype Summary = Summary(id: int, name: string, age: int, phone: string, bed: int, critical: int)

  function SummaryOf(p: Patient): Summary {
    Summary(p.patientId, p.name, p.age, p.phone, p.bedNumber, p.critical)
  }

  /** The one-line answers the server writes to the client, without their
      text formatting. `IdOutOfRange` stands for the store past the end of
      the patient table that the C code performs without a bound check. */
  datatype Response =
    | Admitted(id: int, bed: int)
    | NoBedsAvailable
    | PatientReleased
    | InvalidPatientId
    | Found(summary: Summary)
    | PatientNotFound
    | UnknownCommand
    | IdOutOfRange(badId: int)

  /** The outcome of one request: the new table, the response, and the
      records appended to the release log during the request. */
  datatype Step = Step(table: Table, response: Response, audit: seq<Patient>)
}
